=== FILE: README.md ===
# Verified model of the video bot's decision logic

The repository is a Telegram bot that takes a photo and a text prompt and asks
Stability AI's image-to-video service for a short clip, optionally rewriting
the prompt first with Gemini Vision. Almost all of it is glue around the
Telegram, Gemini, aiohttp and PIL libraries. This project models the
deterministic logic inside that glue, with every library call replaced by an
abstract input, and proves properties about it in Dafny:

- `Poll` — `_poll_stability_result`, which is written twice with the same
  logic (`utils/gemini_client.py` and `utils/api_clients.py`). It is modelled
  once, as a function of the upstream's replies, attempt by attempt. A 200
  saves the body and returns. A 202 moves on to the next attempt. Any other
  status breaks out with `None`. An exception is logged and uses up its
  attempt. The budget is `max_attempts`, 30 by default, and a negative budget
  makes no requests, as `range` does. The loop is written twice: as the
  recursive `PollFrom`, whose contract pins down the outcome completely, and
  as the method `PollStabilityResult`, which uses the source's own
  `continue`/`break`/`return` and is proved equal to it.
- `Stability` — the authorisation headers, the multipart forms and one
  submission. The direct call adds `prompt` only when the prompt is
  non-empty. The Gemini-path call always adds it. A 200 hands the job id to
  the poll. Any other status, or an exception, gives `None`. With no key,
  both entry points return `None` without sending anything. Both functions
  close the image file before posting the form; the model keeps it open
  while posting, as intended, and the "Findings" section models the code
  as written beside it.
- `Enhancement` — `enhance_prompt_with_vision`. It uses the stripped model
  text when that is non-empty, and the user's prompt otherwise or when
  anything raised. `str.strip()` is modelled with Python's whitespace set.
  The stripped result is characterised independently and shown to be unique.
- `Suggestions` — `_extract_video_suggestions`, with case-insensitive keyword
  tests in a fixed order and a default when nothing matches.
- `Orchestrator` — the Gemini path, which enhances and then submits, and the
  outer fallback. The Gemini result is returned when it is truthy. Otherwise
  the direct Stability call is made with the user's own prompt.
- `VideoProcessor` — the 10 MiB fail-closed validation gate, the
  `'.jpg'` → `'_optimized.jpg'` rename (Python `str.replace`, every
  occurrence), and `cleanup_files`, where one failed unlink does not stop the
  rest.
- `Config` — the settings read from the environment, `MAX_FILE_SIZE`, and
  `validate_config`'s ordered list of missing names.

The network, the clock, the Gemini SDK, PIL and the file system become
parameters:

- An `Upstream` value holds the submission reply and a function from the
  attempt number to the poll reply (`Response(status, body)` or `Raised`).
  It also holds the temporary file name the saved video would get.
- A `VisionReply` is the model's text or `VisionRaised`.
- An `ImageProbe` says whether PIL verified the file and what size `getsize`
  reported.
- `OptimizeImage` takes a flag saying whether processing succeeded.
- `CleanupFiles` takes the set of existing files and the set of files whose
  unlink raises.

A returned video is a `VideoFile(path, data)`. The orchestrator's
`if video_path:` is Python truthiness: the value is not `None` and the path
is not empty.

`bot.py` keeps no per-user state: its photo and text handlers
(`bot.py:125-140`) only send a reply, the text handler echoing the prompt,
and store nothing. A 200 status reply is
"ready" whatever the size of its body, there is no other way of producing a
video than the Stability service, and every failure is reported as a plain
`None`.

One consequence of the rename rule is visible in `OptimizeImage`'s contract.
For a path without `.jpg`, such as a `.png` upload, the optimised name equals
the input name. The re-encoded JPEG is therefore saved over the original file.

## Model

| member | source | states |
|---|---|---|
| Config.FromEnvironment | config.py:9-16 | The two required values are `None` when unset. `STABILITY_API_KEY` and `LUMA_API_KEY` are `''` when unset, and otherwise the environment's value. |
| Config.MissingAmong | config.py:29 | The missing list holds exactly the names whose attribute is falsy, as a subsequence of the names checked, in their order. |
| Config.Missing | config.py:28-29 | `missing` holds exactly those of `TELEGRAM_TOKEN`, `GOOGLE_AI_API_KEY` whose value is `None` or empty, in that order. |
| Config.ValidateConfig | config.py:27-34 | Succeeds with `True` iff both required values are truthy. Otherwise it raises with the non-empty missing list, which names each falsy one. |
| Config.ValidateFromEnvironment | config.py:9-34 | Start-up validation passes iff both variables are set and non-empty. Otherwise the error lists exactly the unset or empty ones, `TELEGRAM_TOKEN` first. |
| Poll.PollFrom | utils/gemini_client.py:159-181 | From attempt k: at most the budget of requests. Every reply before the last was a 202 or an exception. A video comes only from a 200 on the last request, with that body. `None` means the budget ran out on 202s/exceptions or the last status was neither 200 nor 202. |
| Poll.PollResult | utils/api_clients.py:73-97 | The same characterisation of the whole poll, from the first attempt. |
| Poll.PollStabilityResult | utils/gemini_client.py:153-181 | The loop with `continue` on 202 and on exceptions, `break` on other statuses and `return` on 200 returns the same video and request count as the recursive definition `PollFrom`. |
| Poll.FirstReadyReturns | utils/gemini_client.py:168-170 | The first 200 within budget, after only 202s and exceptions, returns its body at once after exactly k+1 requests. No later attempt is made. |
| Poll.FailureStopsPolling | utils/gemini_client.py:174-175 | A status other than 200/202 ends polling with `None` after k+1 requests, even with budget left. |
| Poll.AllPendingExhaustsBudget | utils/gemini_client.py:159-181 | If every attempt answers 202 or raises, the result is `None` after exactly the budgeted number of requests. |
| Poll.SucceedsIffReadyBeforeFailure | utils/api_clients.py:75-97 | A video is returned iff some attempt within budget answers 200 and all earlier ones answered 202 or raised. |
| Poll.RaisedActsAsPending | utils/gemini_client.py:177-179 | An exception is swallowed and uses up its attempt exactly as a 202 would. Reply streams that differ only that way give the same outcome. |
| Poll.PendingTwiceThenReady | utils/api_clients.py:75-89 | 202, 202, then 200 returns that body after exactly three requests. |
| Stability.AuthHeaders | utils/api_clients.py:11-16 | The headers are empty iff the key is empty. Otherwise they are the single `Authorization: Bearer <key>` header. |
| Stability.DirectForm | utils/api_clients.py:44-51 | The form is exactly image, `seed='0'`, `cfg_scale='1.8'`, `motion_bucket_id='127'`, followed by a `prompt` field holding the prompt iff the prompt is non-empty: four fields without a prompt, five with one. |
| Stability.EnhancedForm | utils/gemini_client.py:126-131 | Exactly the same four fixed fields and a fifth `prompt` field with the enhanced prompt, present even when it is empty. |
| Stability.Submit | utils/api_clients.py:42-67 | An image that cannot be opened ends the call with no form built. Otherwise the form is sent. The job id is polled iff the status is 200, and the call then returns the poll's video. Otherwise no status request is made and the result is `None`. The budget is at most 30. |
| Stability.ImageToVideo | utils/api_clients.py:36-71 | Empty headers return `None` with no request. Otherwise the direct form for the given prompt is sent, the job is polled iff the submission got a 200, and the video is the poll's result for an accepted job and `None` otherwise. |
| Stability.FallbackToStabilityAi | utils/gemini_client.py:113-151 | An empty key returns `None` with no request. Otherwise the enhanced form is sent, the job is polled iff the submission got a 200, and the video is the poll's result for an accepted job and `None` otherwise. |
| Stability.GuardsAgree | utils/api_clients.py:38-39 | The direct call's header guard and the Gemini path's key guard skip the network together: no form goes out exactly when the key is empty or the image cannot be opened. |
| Stability.RejectedSubmissionReturnsNone | utils/api_clients.py:60-67 | A non-200 submission returns `None` without polling. |
| Stability.AcceptedSubmissionPolls | utils/gemini_client.py:140-143 | A 200 submission polls its `id`, and the call returns exactly the poll's result. |
| Stability.SubmitAsWritten | utils/api_clients.py:42-67 | As written, the image file is closed before the post, so the call never polls and never returns a video, whatever the upstream answers. |
| Stability.ClosedImageLosesVideo | utils/api_clients.py:43-53 | An upstream that accepts the job and has it ready at once yields a video with the file open during the post, and `None` as written. |
| Enhancement.Strip | utils/gemini_client.py:72 | `str.strip()`: the result is a contiguous piece of the text with only whitespace around it and no whitespace at its ends. It is empty iff the text is all whitespace. |
| Enhancement.StrippedUnique | utils/gemini_client.py:72 | Only one string is the text with its surrounding whitespace removed. |
| Enhancement.StripIdempotent | utils/gemini_client.py:72 | Stripping twice is stripping once. |
| Enhancement.EnhancePrompt | utils/gemini_client.py:46-79 | A raised call, or whitespace-only text, gives the user's prompt. Otherwise the result is the non-empty stripped text. |
| Enhancement.EnhancedEmptyOnlyIfUserEmpty | utils/gemini_client.py:75-79 | The enhanced prompt is empty only if the user's prompt was. |
| Suggestions.LowerChar | utils/gemini_client.py:228 | An ASCII capital becomes its lower-case letter, and the Kelvin sign becomes `k`, as Python lower-cases it. Every other character is kept. No result is an ASCII capital. |
| Suggestions.Lower | utils/gemini_client.py:228 | `analysis.lower()` character by character: the same length, each character lowered as `LowerChar` does (see its line under "Left out"). |
| Suggestions.Mentions | utils/gemini_client.py:228-235 | `word in analysis.lower()` holds iff the word matches some stretch of the analysis, character by character, up to case. |
| Suggestions.Select | utils/gemini_client.py:226-237 | Never empty. The default alone exactly when no test matched. Otherwise each suggestion is present iff its test matched, and the list is a subsequence of clouds, water, leaf, human, in that order. |
| Suggestions.ExtractVideoSuggestions | utils/gemini_client.py:223-237 | Never empty. `["cinematic slow motion"]` iff none of the eight keywords occurs case-insensitively. Otherwise clouds/water/leaf/human are each present iff one of their two keywords occurs, as a subsequence of that fixed order (so at most four). |
| Suggestions.SuggestionsDistinct | utils/gemini_client.py:228-235 | No suggestion appears twice. |
| Suggestions.Pick | utils/gemini_client.py:226-235 | The entries whose test matched, in the tests' order: a subsequence of the candidates, holding every candidate whose flag is set and nothing else, empty iff no flag is set. |
| Suggestions.SuggestionsIgnoreCase | utils/gemini_client.py:228-235 | An analysis and its lower-cased form give the same suggestions. |
| Suggestions.RiverExample | utils/gemini_client.py:230-231 | `"A calm RIVER"` gives exactly `["flowing water motion"]`. |
| Suggestions.DefaultExample | utils/gemini_client.py:223-237 | `"Portrait"` gives exactly the default. |
| VideoProcessor.ValidateImage | utils/video_processor.py:7-22 | Accepts iff the image verified and its size could be read and is at most `Config.MAX_FILE_SIZE`. Any exception gives false. |
| VideoProcessor.SizeLimitsAgree | utils/video_processor.py:15 | The validator's hard-coded bound equals `MAX_FILE_SIZE` = 10485760. |
| VideoProcessor.SizeBoundary | utils/video_processor.py:14-18 | Exactly 10 MiB is accepted, and one byte more is rejected. |
| VideoProcessor.ReplaceAll | utils/video_processor.py:37 | A string without the pattern comes back unchanged. A replacement at least as long as the pattern never shortens the string, and a longer one lengthens every string that contains the pattern. |
| VideoProcessor.OptimizedPath | utils/video_processor.py:37 | The rename never shortens a path, and the name is unchanged iff the path contains no `.jpg`. |
| VideoProcessor.RestoreOptimized | utils/video_processor.py:37 | Replacing `_optimized.jpg` back by `.jpg` recovers the original path, so the rename is injective. |
| VideoProcessor.OptimizedExtension | utils/video_processor.py:37 | A path whose only `.jpg` is its extension becomes `<base>_optimized.jpg`. |
| VideoProcessor.EveryJpgRewritten | utils/video_processor.py:37 | `str.replace` leaves no `.jpg` behind: every `.jpg` in the optimised name is the end of an `_optimized.jpg`. |
| VideoProcessor.OptimizeImage | utils/video_processor.py:25-44 | On success the result is the path with every `.jpg` replaced, and it restores to the input. The original path is returned iff processing raised or there is no `.jpg` to rewrite. |
| VideoProcessor.FailedRemovals | utils/video_processor.py:49-54 | The logged failures are exactly the listed paths that exist and cannot be unlinked. |
| VideoProcessor.CleanupFiles | utils/video_processor.py:47-54 | Visiting the paths in order: exactly the listed existing deletable files are removed, everything else stays, and each failed unlink is logged in order without stopping the loop. |
| Orchestrator.GeminiGenerate | utils/gemini_client.py:25-44 | The submitted prompt is the enhancement of the user's prompt. An empty key means no request. Otherwise the enhanced form carries it, the job is polled iff accepted, and the video is the accepted job's poll result. |
| Orchestrator.GenerateVideo | utils/api_clients.py:18-34 | The Gemini run happens first. A truthy Gemini result is returned and no direct call is made. Otherwise the direct call with the same key's headers and the user's own prompt is made and its result returned. In terms of the two jobs: `None` without a key, else the Gemini job's video when its path is truthy, else the direct job's video. |
| Orchestrator.VideoIffSomeJobFinishes | utils/api_clients.py:18-34 | A video comes back iff a key is set and either the Gemini-path job was accepted and polled to a video with a non-empty path, or the direct job was accepted and polled to a video. |
| Orchestrator.BothRejected | utils/api_clients.py:23-30 | Both submissions rejected: `None`, after sending the enhanced form and then the direct form. |
| Orchestrator.VisionFailureKeepsPrompt | utils/gemini_client.py:77-79 | A vision failure does not block generation: the enhanced prompt is the user's prompt, and the Stability call is made with it unchanged. |
| Orchestrator.ReadyAtFirstPoll | utils/api_clients.py:23-26 | Gemini-path job ready at the first poll: that video is returned after one status request, and no direct call is made. |
| Orchestrator.GeminiTimeoutFallsBack | utils/api_clients.py:28-30 | When the Gemini-path poll gets only 202s, its 30 requests are spent, then the direct call is made and decides the result. |

## Left out

- HTTP through aiohttp: URLs, headers on the wire, `REQUEST_TIMEOUT`, and JSON and body decoding. Each reply is an abstract value, and every exception on the way is the `Raised` case of that reply.
- A 200 submission whose JSON has no `id` polls `.../result/None`. The model's job id is always a string.
- `asyncio.sleep(5)` before each status request and all async scheduling. Attempts are counted, not timed.
- The Gemini SDK (`genai.configure`, `GenerativeModel`, `generate_content`) and `GeminiVideoClient.__init__`. Their answer is the `VisionReply` input.
- PIL: opening, `verify`, RGB conversion, LANCZOS thumbnailing and JPEG quality 85. These are an external library. Validation and optimisation take their success as a boolean.
- `_save_video_file` and `generate_video_direct`, which write temporary files. `analyze_image_content`, which only wraps the Gemini SDK around `_extract_video_suggestions`. The saved file's name is the `savePath` input.
- The outer `except` of both `generate_video_from_image_prompt` functions (`utils/api_clients.py:32-34`, `utils/gemini_client.py:42-44`). Every callee catches `Exception` itself, so no modelled input reaches these handlers.
- The Luma headers are built (`utils/api_clients.py:14-16`) but never used. `AuthHeaders` describes them too.
- `.env` loading and `os.getenv` side effects. `MAX_VIDEO_DURATION` and `SUPPORTED_FORMATS` are never read by the modelled code, and `REQUEST_TIMEOUT` belongs to the HTTP layer, so none of the three is declared.
- All of `bot.py`: handler registration, message texts, the start-up environment check and `exit`. It is transport glue and keeps no state.
- VideoProcessor.ReplaceAll: its body replaces every non-overlapping occurrence left to right, as `str.replace` does, but its contract does not state that rule for an arbitrary pattern; for the one pattern the source uses, `.jpg`, it is proved by `EveryJpgRewritten` and `RestoreOptimized`.
- Suggestions.Lower: keeps the length of the text, while Python's `str.lower` turns U+0130 into two characters; it inherits the limits of `LowerChar` below, and only the keyword tests built on it are exact.
- Suggestions.LowerChar: maps only `A`-`Z` and the Kelvin sign (U+212A → `k`) and keeps other characters. Python lower-cases all of Unicode. No other character lower-cases to an ASCII letter, except U+0130, whose `i` is followed by U+0307 and so cannot complete any keyword. The keyword tests are therefore exact, but the lower-cased string itself is not.

## Findings

| source | as written | input that shows it | evidently intended | confidence | as-written member | corrected member |
|---|---|---|---|---|---|---|
| utils/api_clients.py:43-53 | The `with open(image_path, 'rb')` block that adds the image to the form ends before `session.post` runs; `utils/gemini_client.py:125-133` does the same. aiohttp reads the image field while producing the request body, so it reads a closed file, raises, and the `except` returns `None`. | Any submission, for example one the service would accept with the video ready at the first status request (`ClosedImageLosesVideo`). | The file stays open while the form is posted, so a 200 submission is polled and its video returned. | medium; not executed, and it depends on aiohttp reading the file object only when the body is sent | Stability.SubmitAsWritten | Stability.Submit |

=== FILE: common.dfy ===
/** Shared value types for the video bot model: optional values, results
    standing in for raised exceptions, bytes, and small string predicates. */
module Common {

  /** Python's `None` or a value. */
  datatype Option<+T> = None | Some(value: T) {
    function GetOr(default: T): T {
      match this
      case Some(v) => v
      case None => default
    }
  }

  /** A normal return value, or the error a Python function raises instead. */
  datatype Result<+R, +E> = Success(value: R) | Failure(error: E)

  /** Python truthiness of an optional string: neither `None` nor `''`. */
  predicate Truthy(v: Option<string>) {
    v.Some? && v.value != ""
  }

  newtype byte = x: int | 0 <= x < 256

  type Bytes = seq<byte>

  /** `xs` lists some of the elements of `ys`, in the same relative order. */
  predicate IsSubsequence<T(==)>(xs: seq<T>, ys: seq<T>)
    decreases |ys|
  {
    if xs == [] then true
    else if ys == [] then false
    else if xs[0] == ys[0] then IsSubsequence(xs[1..], ys[1..])
    else IsSubsequence(xs, ys[1..])
  }

  /** A subsequence of the tail is a subsequence of the whole. */
  lemma {:induction false} SubsequenceOfTail<T>(xs: seq<T>, y: T, ys: seq<T>)
    requires IsSubsequence(xs, ys)
    ensures IsSubsequence(xs, [y] + ys)
    decreases |xs| + |ys| + 1
  {
    assert ([y] + ys)[1..] == ys;
    if xs != [] && xs[0] == y {
      SubsequenceDropFirst(xs, ys);
    }
  }

  /** Dropping the first element of a subsequence leaves a subsequence. */
  lemma {:induction false} SubsequenceDropFirst<T>(xs: seq<T>, ys: seq<T>)
    requires xs != [] && IsSubsequence(xs, ys)
    ensures IsSubsequence(xs[1..], ys)
    decreases |xs| + |ys|
  {
    assert ys == [ys[0]] + ys[1..];
    if xs[0] == ys[0] {
      SubsequenceOfTail(xs[1..], ys[0], ys[1..]);
    } else {
      SubsequenceDropFirst(xs, ys[1..]);
      SubsequenceOfTail(xs[1..], ys[0], ys[1..]);
    }
  }

  /** No element occurs twice. */
  predicate Distinct<T(==)>(s: seq<T>) {
    forall i, j :: 0 <= i < j < |s| ==> s[i] != s[j]
  }

  /** Every element of a subsequence is an element of the whole. */
  lemma {:induction false} SubsequenceElements<T>(xs: seq<T>, ys: seq<T>)
    requires IsSubsequence(xs, ys)
    ensures forall x :: x in xs ==> x in ys
    decreases |ys|
  {
    if xs != [] {
      if xs[0] == ys[0] {
        SubsequenceElements(xs[1..], ys[1..]);
        assert xs == [xs[0]] + xs[1..];
      } else {
        SubsequenceElements(xs, ys[1..]);
      }
    }
  }

  /** A subsequence of a sequence without repeats has no repeats. */
  lemma {:induction false} SubsequenceDistinct<T>(xs: seq<T>, ys: seq<T>)
    requires IsSubsequence(xs, ys) && Distinct(ys)
    ensures Distinct(xs)
    decreases |ys|
  {
    if xs != [] {
      assert Distinct(ys[1..]) by {
        forall i, j | 0 <= i < j < |ys[1..]| ensures ys[1..][i] != ys[1..][j] {
          assert ys[1..][i] == ys[i + 1] && ys[1..][j] == ys[j + 1];
        }
      }
      if xs[0] == ys[0] {
        SubsequenceDistinct(xs[1..], ys[1..]);
        SubsequenceElements(xs[1..], ys[1..]);
        forall j | 0 < j < |xs| ensures xs[0] != xs[j] {
          assert xs[j] == xs[1..][j - 1];
          assert xs[j] in ys[1..];
        }
      } else {
        SubsequenceDistinct(xs, ys[1..]);
      }
    }
  }

  /** `w` occurs in `s` starting at index `i`. */
  predicate OccursAt(s: string, w: string, i: int) {
    0 <= i && i + |w| <= |s| && s[i..i + |w|] == w
  }

  /** Python's `w in s` for strings. */
  predicate Contains(s: string, w: string) {
    exists i :: 0 <= i <= |s| - |w| && OccursAt(s, w, i)
  }

  predicate StartsWith(s: string, w: string) {
    |w| <= |s| && s[..|w|] == w
  }

  /** Extending a string at the front keeps every occurrence it had, shifted by one. */
  lemma ContainsCons(c: char, s: string, w: string)
    requires Contains(s, w)
    ensures Contains([c] + s, w)
  {
    var i :| 0 <= i <= |s| - |w| && OccursAt(s, w, i);
    assert ([c] + s)[i + 1..i + 1 + |w|] == s[i..i + |w|];
    assert OccursAt([c] + s, w, i + 1);
  }

  /** An occurrence in `[c] + s` that is not at the front is an occurrence in `s`. */
  lemma ContainsUncons(c: char, s: string, w: string)
    requires Contains([c] + s, w)
    requires !StartsWith([c] + s, w)
    ensures Contains(s, w)
  {
    var i :| 0 <= i <= |[c] + s| - |w| && OccursAt([c] + s, w, i);
    assert s[i - 1..i - 1 + |w|] == ([c] + s)[i..i + |w|];
    assert OccursAt(s, w, i - 1);
  }

  /** For a string that does not start with `w`, `w` occurs in it exactly
      when it occurs after the first character. */
  lemma ContainsTail(s: string, w: string)
    requires s != [] && !StartsWith(s, w)
    ensures Contains(s, w) <==> Contains(s[1..], w)
  {
    assert s == [s[0]] + s[1..];
    if Contains(s, w) {
      ContainsUncons(s[0], s[1..], w);
    }
    if Contains(s[1..], w) {
      ContainsCons(s[0], s[1..], w);
    }
  }

  /** Occurrences in `t` are the occurrences in `u + t`, shifted by `|u|`. */
  lemma ShiftOccurrence(u: string, t: string, w: string, i: int)
    requires 0 <= i
    ensures OccursAt(u + t, w, i + |u|) <==> OccursAt(t, w, i)
  {
    if i + |w| <= |t| {
      assert t[i..i + |w|] == (u + t)[i + |u|..i + |u| + |w|];
    }
  }

  /** Starting with `w` is occurring at index 0. */
  lemma StartsWithOccurs(s: string, w: string)
    ensures StartsWith(s, w) <==> OccursAt(s, w, 0)
  {
    if |w| <= |s| {
      assert s[..|w|] == s[0..|w|];
    }
  }

  /** Starting with `w` one character at a time. */
  lemma StartsWithCons(s: string, w: string)
    requires s != [] && w != [] && s[0] == w[0] && StartsWith(s[1..], w[1..])
    ensures StartsWith(s, w)
  {
    assert s[..|w|] == [s[0]] + s[1..][..|w| - 1];
    assert w == [w[0]] + w[1..];
  }
}

=== FILE: config.dfy ===
/** The bot's settings class: values read from the process environment,
    fixed limits, and the start-up check for required credentials. */
module Config {
  import opened Common

  /** The class attributes read from the environment. `os.getenv(name)`
      gives `None` for an unset variable; the two fallback keys are read
      with a default of the empty string instead. */
  datatype Settings = Settings(
    telegramToken: Option<string>,
    googleAiApiKey: Option<string>,
    stabilityApiKey: string,
    lumaApiKey: string)

  const MaxFileSize: nat := 10 * 1024 * 1024

  /** The names whose values must be truthy, in the order they are checked. */
  const Required: seq<string> := ["TELEGRAM_TOKEN", "GOOGLE_AI_API_KEY"]

  function GetEnv(env: map<string, string>, name: string): Option<string> {
    if name in env then Some(env[name]) else None
  }

  /** The settings as loaded from environment `env`. */
  function FromEnvironment(env: map<string, string>): (s: Settings)
    ensures s.telegramToken == (if "TELEGRAM_TOKEN" in env then Some(env["TELEGRAM_TOKEN"]) else None)
    ensures s.googleAiApiKey == (if "GOOGLE_AI_API_KEY" in env then Some(env["GOOGLE_AI_API_KEY"]) else None)
    ensures "STABILITY_API_KEY" !in env ==> s.stabilityApiKey == ""
    ensures "LUMA_API_KEY" !in env ==> s.lumaApiKey == ""
    ensures "STABILITY_API_KEY" in env ==> s.stabilityApiKey == env["STABILITY_API_KEY"]
    ensures "LUMA_API_KEY" in env ==> s.lumaApiKey == env["LUMA_API_KEY"]
  {
    Settings(
      GetEnv(env, "TELEGRAM_TOKEN"),
      GetEnv(env, "GOOGLE_AI_API_KEY"),
      GetEnv(env, "STABILITY_API_KEY").GetOr(""),
      GetEnv(env, "LUMA_API_KEY").GetOr(""))
  }

  /** `getattr(Config, name)` for the configuration attributes. */
  function Attribute(s: Settings, name: string): Option<string> {
    if name == "TELEGRAM_TOKEN" then s.telegramToken
    else if name == "GOOGLE_AI_API_KEY" then s.googleAiApiKey
    else if name == "STABILITY_API_KEY" then Some(s.stabilityApiKey)
    else if name == "LUMA_API_KEY" then Some(s.lumaApiKey)
    else None
  }

  /** The names among `names` whose attribute is falsy, kept in order. */
  function MissingAmong(s: Settings, names: seq<string>): (m: seq<string>)
    ensures forall n :: n in m <==> n in names && !Truthy(Attribute(s, n))
    ensures IsSubsequence(m, names)
    ensures |m| <= |names|
  {
    if names == [] then []
    else if !Truthy(Attribute(s, names[0])) then [names[0]] + MissingAmong(s, names[1..])
    else MissingAmong(s, names[1..])
  }

  /** The `missing` list of `validate_config`. */
  function Missing(s: Settings): (m: seq<string>)
    ensures forall n :: n in m <==> n in Required && !Truthy(Attribute(s, n))
    ensures IsSubsequence(m, Required)
  {
    MissingAmong(s, Required)
  }

  /** `validate_config`: raises `ValueError` carrying the missing names when
      there are any, and returns `True` otherwise. */
  function ValidateConfig(s: Settings): (r: Result<bool, seq<string>>)
    ensures r.Success? <==> Truthy(s.telegramToken) && Truthy(s.googleAiApiKey)
    ensures r.Success? ==> r.value
    ensures r.Failure? ==> r.error != [] && r.error == Missing(s)
    ensures r.Failure? ==> ("TELEGRAM_TOKEN" in r.error <==> !Truthy(s.telegramToken))
    ensures r.Failure? ==> ("GOOGLE_AI_API_KEY" in r.error <==> !Truthy(s.googleAiApiKey))
  {
    var missing := Missing(s);
    assert Attribute(s, Required[0]) == s.telegramToken && Attribute(s, Required[1]) == s.googleAiApiKey;
    if missing != [] then Failure(missing) else Success(true)
  }

  /** Start-up succeeds exactly when both required variables are set to
      non-empty values; otherwise the error lists the unset or empty ones,
      `TELEGRAM_TOKEN` before `GOOGLE_AI_API_KEY`. */
  lemma ValidateFromEnvironment(env: map<string, string>)
    ensures var r := ValidateConfig(FromEnvironment(env));
      var tokenSet := "TELEGRAM_TOKEN" in env && env["TELEGRAM_TOKEN"] != "";
      var keySet := "GOOGLE_AI_API_KEY" in env && env["GOOGLE_AI_API_KEY"] != "";
      && (r.Success? <==> tokenSet && keySet)
      && (r.Failure? ==> r.error == (if tokenSet then [] else ["TELEGRAM_TOKEN"])
                                    + (if keySet then [] else ["GOOGLE_AI_API_KEY"]))
  {
  }
}

=== FILE: enhancement.dfy ===
/** Best-effort prompt enhancement: the vision model's answer, trimmed,
    replaces the user's prompt unless it is empty or the call raised. */
module Enhancement {

  /** Python's `str.isspace` for one character: the ASCII whitespace and
      separator controls, and the Unicode space and line separators. */
  predicate IsSpace(c: char) {
    || c == ' ' || ('\t' <= c <= '\r') || ('\U{1C}' <= c <= '\U{1F}')
    || c == '\U{85}' || c == '\U{A0}' || c == '\U{1680}'
    || ('\U{2000}' <= c <= '\U{200A}') || c == '\U{2028}' || c == '\U{2029}'
    || c == '\U{202F}' || c == '\U{205F}' || c == '\U{3000}'
  }

  predicate AllSpace(s: string) {
    forall k :: 0 <= k < |s| ==> IsSpace(s[k])
  }

  /** The first index at or after `i` that is not whitespace (or `|s|`). */
  function TextStart(s: string, i: nat): (n: nat)
    requires i <= |s|
    ensures i <= n <= |s|
    ensures forall k :: i <= k < n ==> IsSpace(s[k])
    ensures n == |s| || !IsSpace(s[n])
    decreases |s| - i
  {
    if i < |s| && IsSpace(s[i]) then TextStart(s, i + 1) else i
  }

  /** The end of `s[lo..j]` once its trailing whitespace is dropped. */
  function TextEnd(s: string, lo: nat, j: nat): (e: nat)
    requires lo <= j <= |s|
    ensures lo <= e <= j
    ensures forall k :: e <= k < j ==> IsSpace(s[k])
    ensures e == lo || !IsSpace(s[e - 1])
    decreases j
  {
    if j > lo && IsSpace(s[j - 1]) then TextEnd(s, lo, j - 1) else j
  }

  /** `t` is the piece of `s` starting at `i` with only whitespace around
      it and no whitespace at its own ends. */
  predicate IsStrippedAt(t: string, s: string, i: int) {
    && 0 <= i <= |s| - |t| && s[i..i + |t|] == t
    && (forall k :: 0 <= k < i ==> IsSpace(s[k]))
    && (forall k :: i + |t| <= k < |s| ==> IsSpace(s[k]))
    && (t == [] || (!IsSpace(t[0]) && !IsSpace(t[|t| - 1])))
  }

  /** `t` is `s` with all surrounding whitespace removed. */
  predicate IsStrippedFrom(t: string, s: string) {
    exists i :: 0 <= i <= |s| && IsStrippedAt(t, s, i)
  }

  /** Python's `str.strip()` with no argument. */
  function Strip(s: string): (r: string)
    ensures IsStrippedFrom(r, s)
    ensures r == [] <==> AllSpace(s)
  {
    var lo := TextStart(s, 0);
    var e := TextEnd(s, lo, |s|);
    assert IsStrippedAt(s[lo..e], s, lo);
    s[lo..e]
  }

  /** There is only one way to strip a string. */
  lemma StrippedUnique(t: string, t': string, s: string)
    requires IsStrippedFrom(t, s) && IsStrippedFrom(t', s)
    ensures t == t'
  {
  }

  /** Stripping twice changes nothing more. */
  lemma StripIdempotent(s: string)
    ensures Strip(Strip(s)) == Strip(s)
  {
  }

  /** What the vision model call gave: the response text, or an exception
      (reading the image, decoding it, the request, or the response). */
  datatype VisionReply = Text(text: string) | VisionRaised

  /** `enhance_prompt_with_vision`: the stripped response when it is not
      empty, the user's prompt when it is empty or the call raised. */
  function EnhancePrompt(userPrompt: string, reply: VisionReply): (r: string)
    ensures reply.VisionRaised? ==> r == userPrompt
    ensures reply.Text? && AllSpace(reply.text) ==> r == userPrompt
    ensures reply.Text? && !AllSpace(reply.text) ==> r != [] && IsStrippedFrom(r, reply.text)
  {
    match reply
    case VisionRaised => userPrompt
    case Text(text) =>
      var enhanced := Strip(text);
      if enhanced != [] then enhanced else userPrompt
  }

  /** The enhanced prompt is empty only when the user's prompt was. */
  lemma EnhancedEmptyOnlyIfUserEmpty(userPrompt: string, reply: VisionReply)
    ensures EnhancePrompt(userPrompt, reply) == [] ==> userPrompt == []
  {
  }
}

=== FILE: orchestrator.dfy ===
/** The generation entry points: the Gemini path (enhance the prompt, then
    submit it to Stability) and the outer fallback to a direct Stability
    call with the user's own prompt. */
module Orchestrator {
  import opened Common
  import opened Poll
  import opened Stability
  import opened Enhancement

  /** The caller's `if video_path:` on a returned video: it is not `None`
      and its path is truthy. */
  predicate ReturnsVideo(v: Option<VideoFile>) {
    v.Some? && Truthy(Some(v.value.path))
  }

  /** The Gemini path: the prompt it submitted and the Stability call it made. */
  datatype GeminiRun = GeminiRun(enhancedPrompt: string, call: ProviderCall)

  /** `GeminiVideoClient.generate_video_from_image_prompt`: enhance the
      prompt, then run the Stability fallback with it. */
  function GeminiGenerate(stabilityKey: string, prompt: string, vision: VisionReply, up: Upstream): (g: GeminiRun)
    ensures g.enhancedPrompt == EnhancePrompt(prompt, vision)
    ensures stabilityKey == "" ==> g.call == NoRequest
    ensures stabilityKey != "" && !up.submit.OpenRaised? ==>
      g.call.sent == Some(EnhancedForm(g.enhancedPrompt))
      && FieldValue(g.call.sent.value, "prompt") == Some(g.enhancedPrompt)
    ensures stabilityKey != "" ==> (g.call.polledJob.Some? <==> Accepted(up))
    ensures g.call.video == (if stabilityKey != "" then JobVideo(up) else None)
  {
    var enhanced := EnhancePrompt(prompt, vision);
    GeminiRun(enhanced, FallbackToStabilityAi(stabilityKey, enhanced, up))
  }

  /** One generation request: the Gemini run, the direct call if one was
      made, and the video handed back to the chat. */
  datatype Generation = Generation(gemini: GeminiRun, direct: Option<ProviderCall>, video: Option<VideoFile>)

  /** `VideoAPIClients.generate_video_from_image_prompt`: the Gemini path's
      result when it is truthy; otherwise the direct Stability call, whose
      headers were built from the same key, with the user's own prompt. */
  function GenerateVideo(stabilityKey: string, prompt: string, vision: VisionReply,
                         viaGemini: Upstream, direct: Upstream): (g: Generation)
    ensures g.gemini == GeminiGenerate(stabilityKey, prompt, vision, viaGemini)
    ensures ReturnsVideo(g.gemini.call.video) ==> g.direct.None? && g.video == g.gemini.call.video
    ensures !ReturnsVideo(g.gemini.call.video) ==>
      g.direct == Some(ImageToVideo(AuthHeaders(stabilityKey), prompt, direct)) && g.video == g.direct.value.video
    ensures g.direct.Some? ==>
      g.direct.value.sent == (if stabilityKey == "" || direct.submit.OpenRaised? then None else Some(DirectForm(prompt)))
    ensures stabilityKey == "" ==>
      g.video.None? && g.gemini.call.sent.None? && g.direct == Some(NoRequest)
    ensures g.video ==
      if stabilityKey == "" then None
      else if ReturnsVideo(JobVideo(viaGemini)) then JobVideo(viaGemini)
      else JobVideo(direct)
  {
    var gemini := GeminiGenerate(stabilityKey, prompt, vision, viaGemini);
    if ReturnsVideo(gemini.call.video) then Generation(gemini, None, gemini.call.video)
    else
      var call := ImageToVideo(AuthHeaders(stabilityKey), prompt, direct);
      Generation(gemini, Some(call), call.video)
  }

  /** A video comes back exactly when a key is configured and either the
      Gemini-path job was accepted and polled to a video with a non-empty
      path, or the direct job was accepted and polled to a video. */
  lemma VideoIffSomeJobFinishes(stabilityKey: string, prompt: string, vision: VisionReply,
                                viaGemini: Upstream, direct: Upstream)
    ensures GenerateVideo(stabilityKey, prompt, vision, viaGemini, direct).video.Some? <==>
      stabilityKey != "" &&
      (|| (Accepted(viaGemini)
           && PollResult(viaGemini.replies, DefaultMaxAttempts, viaGemini.savePath).video.Some?
           && viaGemini.savePath != "")
       || (Accepted(direct) && PollResult(direct.replies, DefaultMaxAttempts, direct.savePath).video.Some?))
  {
  }

  /** Both submissions rejected: nothing is returned, after exactly two
      requests — the enhanced prompt first, then the user's prompt. */
  lemma BothRejected(stabilityKey: string, prompt: string, vision: VisionReply,
                     viaGemini: Upstream, direct: Upstream)
    requires stabilityKey != ""
    requires viaGemini.submit.Submitted? && viaGemini.submit.status != 200
    requires direct.submit.Submitted? && direct.submit.status != 200
    ensures var g := GenerateVideo(stabilityKey, prompt, vision, viaGemini, direct);
      && g.video.None?
      && g.gemini.call.sent == Some(EnhancedForm(EnhancePrompt(prompt, vision)))
      && g.direct == Some(ProviderCall(Some(DirectForm(prompt)), None, 0, None))
  {
  }

  /** A vision failure does not block generation: the Gemini path submits
      the user's prompt unchanged. */
  lemma VisionFailureKeepsPrompt(stabilityKey: string, prompt: string, up: Upstream)
    ensures var g := GeminiGenerate(stabilityKey, prompt, VisionRaised, up);
      g.enhancedPrompt == prompt && g.call == FallbackToStabilityAi(stabilityKey, prompt, up)
  {
  }

  /** The Gemini path's job is ready at the first poll: its video is
      returned after one status request and the direct call is never made. */
  lemma ReadyAtFirstPoll(stabilityKey: string, prompt: string, vision: VisionReply,
                         viaGemini: Upstream, direct: Upstream, body: Bytes)
    requires stabilityKey != ""
    requires viaGemini.submit.Submitted? && viaGemini.submit.status == 200
    requires viaGemini.replies(0) == Response(200, body)
    requires viaGemini.savePath != ""
    ensures var g := GenerateVideo(stabilityKey, prompt, vision, viaGemini, direct);
      && g.video == Some(VideoFile(viaGemini.savePath, body))
      && g.direct.None?
      && g.gemini.call.requests == 1
  {
  }

  /** The Gemini path times out (every status request answers 202): the
      direct call is made with the user's prompt and decides the result. */
  lemma GeminiTimeoutFallsBack(stabilityKey: string, prompt: string, vision: VisionReply,
                               viaGemini: Upstream, direct: Upstream)
    requires stabilityKey != ""
    requires viaGemini.submit.Submitted? && viaGemini.submit.status == 200
    requires forall j :: 0 <= j < DefaultMaxAttempts ==> viaGemini.replies(j).Response? && viaGemini.replies(j).status == 202
    ensures var g := GenerateVideo(stabilityKey, prompt, vision, viaGemini, direct);
      && g.gemini.call.requests == DefaultMaxAttempts
      && g.direct == Some(Submit(DirectForm(prompt), direct))
      && g.video == Submit(DirectForm(prompt), direct).video
  {
  }
}

=== FILE: poll.dfy ===
/** The result poll of a submitted image-to-video job: one status request
    per attempt, up to a fixed budget. The inter-attempt sleep is not
    modelled; attempts are counted steps. */
module Poll {
  import opened Common

  /** The budget both callers use (the `max_attempts` default). */
  const DefaultMaxAttempts: int := 30

  /** What one status request gave: an HTTP status with the body it
      carried, or an exception raised while requesting, reading the body or
      saving the file. */
  datatype PollReply = Response(status: int, body: Bytes) | Raised

  /** The replies the upstream gives for one job, attempt by attempt
      (attempt 0 is the first status request). */
  type Replies = nat -> PollReply

  /** A saved video: the temporary file name handed back to the caller and
      the bytes written to it. */
  datatype VideoFile = VideoFile(path: string, data: Bytes)

  /** The poll's return value and the number of status requests it issued. */
  datatype PollOutcome = PollOutcome(video: Option<VideoFile>, requests: nat)

  /** A reply after which the loop goes on to the next attempt. */
  predicate KeepsPolling(r: PollReply) {
    r.Raised? || r.status == 202
  }

  /** A reply carrying the finished video. */
  predicate IsReady(r: PollReply) {
    r.Response? && r.status == 200
  }

  /** A reply that ends polling without a video. */
  predicate IsTerminalFailure(r: PollReply) {
    r.Response? && r.status != 200 && r.status != 202
  }

  /** `range(maxAttempts)` has this many elements. */
  function Budget(maxAttempts: int): nat {
    if maxAttempts < 0 then 0 else maxAttempts
  }

  /** The loop from attempt `k` on: 200 saves the body and returns, 202 and
      exceptions go to the next attempt, any other status breaks out and
      the function returns `None`. */
  function PollFrom(replies: Replies, k: nat, maxAttempts: int, savePath: string): (o: PollOutcome)
    requires k <= Budget(maxAttempts)
    ensures k <= o.requests <= Budget(maxAttempts)
    ensures forall j :: k <= j < o.requests - 1 ==> KeepsPolling(replies(j))
    ensures o.video.Some? ==>
      o.requests > k && IsReady(replies(o.requests - 1))
      && o.video.value == VideoFile(savePath, replies(o.requests - 1).body)
    ensures o.video.None? ==>
      || (o.requests == Budget(maxAttempts) && forall j :: k <= j < o.requests ==> KeepsPolling(replies(j)))
      || (o.requests > k && IsTerminalFailure(replies(o.requests - 1)))
    decreases Budget(maxAttempts) - k
  {
    if k == Budget(maxAttempts) then PollOutcome(None, k)
    else
      match replies(k)
      case Raised => PollFrom(replies, k + 1, maxAttempts, savePath)
      case Response(status, body) =>
        if status == 200 then PollOutcome(Some(VideoFile(savePath, body)), k + 1)
        else if status == 202 then PollFrom(replies, k + 1, maxAttempts, savePath)
        else PollOutcome(None, k + 1)
  }

  /** `_poll_stability_result` as a function of the upstream's replies. */
  function PollResult(replies: Replies, maxAttempts: int, savePath: string): (o: PollOutcome)
    ensures o.requests <= Budget(maxAttempts)
    ensures forall j :: 0 <= j < o.requests - 1 ==> KeepsPolling(replies(j))
    ensures o.video.Some? ==>
      o.requests > 0 && IsReady(replies(o.requests - 1))
      && o.video.value == VideoFile(savePath, replies(o.requests - 1).body)
    ensures o.video.None? ==>
      || (o.requests == Budget(maxAttempts) && forall j :: 0 <= j < o.requests ==> KeepsPolling(replies(j)))
      || (o.requests > 0 && IsTerminalFailure(replies(o.requests - 1)))
  {
    PollFrom(replies, 0, maxAttempts, savePath)
  }

  /** `_poll_stability_result` written as the loop it is: `continue` on 202
      and on an exception, `break` on any other status, `return` on 200. */
  method PollStabilityResult(replies: Replies, maxAttempts: int, savePath: string)
    returns (video: Option<VideoFile>, requests: nat)
    ensures PollOutcome(video, requests) == PollResult(replies, maxAttempts, savePath)
  {
    requests := 0;
    var attempt := 0;
    while attempt < maxAttempts
      invariant 0 <= attempt <= Budget(maxAttempts)
      invariant requests == attempt
      invariant PollFrom(replies, attempt, maxAttempts, savePath) == PollResult(replies, maxAttempts, savePath)
    {
      var reply := replies(attempt);
      requests := requests + 1;
      attempt := attempt + 1;
      if reply.Raised? {
        continue;
      }
      if reply.status == 200 {
        return Some(VideoFile(savePath, reply.body)), requests;
      } else if reply.status == 202 {
        continue;
      } else {
        break;
      }
    }
    video := None;
  }

  /** The first 200 within the budget, after only 202s and exceptions,
      returns its body at once: exactly `k + 1` requests were made. */
  lemma FirstReadyReturns(replies: Replies, k: nat, maxAttempts: int, savePath: string)
    requires k < Budget(maxAttempts)
    requires forall j :: 0 <= j < k ==> KeepsPolling(replies(j))
    requires IsReady(replies(k))
    ensures PollResult(replies, maxAttempts, savePath)
      == PollOutcome(Some(VideoFile(savePath, replies(k).body)), k + 1)
  {
  }

  /** Any status other than 200 and 202 ends the poll with `None` at once,
      even when budget remains. */
  lemma FailureStopsPolling(replies: Replies, k: nat, maxAttempts: int, savePath: string)
    requires k < Budget(maxAttempts)
    requires forall j :: 0 <= j < k ==> KeepsPolling(replies(j))
    requires IsTerminalFailure(replies(k))
    ensures PollResult(replies, maxAttempts, savePath) == PollOutcome(None, k + 1)
  {
  }

  /** When every attempt of the budget is a 202 or an exception, the poll
      gives `None` after exactly the budgeted number of requests. */
  lemma AllPendingExhaustsBudget(replies: Replies, maxAttempts: int, savePath: string)
    requires forall j :: 0 <= j < Budget(maxAttempts) ==> KeepsPolling(replies(j))
    ensures PollResult(replies, maxAttempts, savePath) == PollOutcome(None, Budget(maxAttempts))
  {
  }

  /** The poll yields a video exactly when some attempt within the budget
      answers 200 and every earlier attempt answered 202 or raised. */
  lemma SucceedsIffReadyBeforeFailure(replies: Replies, maxAttempts: int, savePath: string)
    ensures PollResult(replies, maxAttempts, savePath).video.Some? <==>
      exists k :: 0 <= k < Budget(maxAttempts) && IsReady(replies(k))
        && forall j :: 0 <= j < k ==> KeepsPolling(replies(j))
  {
  }

  /** An exception during an attempt is swallowed: it uses up that attempt
      exactly as a 202 would. Replies that differ only by an exception in
      place of a 202 give the same outcome. */
  lemma RaisedActsAsPending(replies: Replies, other: Replies, k: nat, maxAttempts: int, savePath: string)
    requires k <= Budget(maxAttempts)
    requires forall j :: k <= j ==>
      replies(j) == other(j) || (KeepsPolling(replies(j)) && KeepsPolling(other(j)))
    ensures PollFrom(replies, k, maxAttempts, savePath) == PollFrom(other, k, maxAttempts, savePath)
  {
  }

  /** Pending twice and then ready: the third request returns that body. */
  lemma PendingTwiceThenReady(body: Bytes, savePath: string)
    ensures var replies := (j: nat) => if j < 2 then Response(202, []) else Response(200, body);
      PollResult(replies, DefaultMaxAttempts, savePath) == PollOutcome(Some(VideoFile(savePath, body)), 3)
  {
  }
}

=== FILE: stability.dfy ===
/** Requests to the Stability image-to-video service: the authorisation
    headers, the multipart form, and one submission followed by the result
    poll. The transport is abstract: each call is given what the upstream
    answers. */
module Stability {
  import opened Common
  import Poll

  /** One multipart form field: the image file, or a named text value. */
  datatype Field = ImageField | TextField(name: string, value: string)

  type Form = seq<Field>

  /** What the submission gave: an HTTP status with the `id` of its JSON
      body, an exception raised by the request itself or by decoding the
      body, or an exception from opening the image file, which happens
      before any form is built. */
  datatype SubmitReply = Submitted(status: int, id: string) | SubmitRaised | OpenRaised

  /** The upstream's answers to one generation: to the submission, to each
      status request of the poll, and the temporary file name the saved
      video gets. */
  datatype Upstream = Upstream(submit: SubmitReply, replies: Poll.Replies, savePath: string)

  /** The submission was answered with status 200. */
  predicate Accepted(up: Upstream) {
    up.submit.Submitted? && up.submit.status == 200
  }

  /** The video an accepted job's result poll (default budget) returns;
      `None` for a job that was not accepted. */
  function JobVideo(up: Upstream): Option<Poll.VideoFile> {
    if Accepted(up) then Poll.PollResult(up.replies, Poll.DefaultMaxAttempts, up.savePath).video else None
  }

  /** What one call did: the form it built and handed to `session.post`
      (`None` when it returned before building one), the job id it polled
      (`None` when it did not poll), how many status requests it made, and
      the video it returned. */
  datatype ProviderCall = ProviderCall(
    sent: Option<Form>,
    polledJob: Option<string>,
    requests: nat,
    video: Option<Poll.VideoFile>)

  /** A call that returned `None` before building any request. */
  const NoRequest: ProviderCall := ProviderCall(None, None, 0, None)

  /** `Bearer` authorisation header when a key is configured, no headers at all otherwise. */
  function AuthHeaders(key: string): (h: map<string, string>)
    ensures |h| == 0 <==> key == ""
    ensures key != "" ==> h == map["Authorization" := "Bearer " + key]
  {
    if key != "" then map["Authorization" := "Bearer " + key] else map[]
  }

  /** The value of the first field named `name`, if any. */
  function FieldValue(form: Form, name: string): Option<string> {
    if form == [] then None
    else if form[0].TextField? && form[0].name == name then Some(form[0].value)
    else FieldValue(form[1..], name)
  }

  /** The fields every submission carries: the image and the fixed
      generation parameters. */
  const BaseForm: Form := [
    ImageField,
    TextField("seed", "0"),
    TextField("cfg_scale", "1.8"),
    TextField("motion_bucket_id", "127")]

  /** A lookup in `a + b` finds the first match in `a`, or else looks in `b`. */
  lemma {:induction false} FieldValueAppend(a: Form, b: Form, name: string)
    ensures FieldValue(a + b, name) == if FieldValue(a, name).Some? then FieldValue(a, name) else FieldValue(b, name)
    decreases |a|
  {
    if a == [] {
      assert a + b == b;
    } else {
      assert (a + b)[0] == a[0] && (a + b)[1..] == a[1..] + b;
      FieldValueAppend(a[1..], b, name);
    }
  }

  /** Looking a name up in the base fields followed by `extra`: the fixed
      parameters come from the base, the prompt from `extra`. */
  lemma BaseFormLookup(extra: Form)
    ensures FieldValue(BaseForm + extra, "seed") == Some("0")
    ensures FieldValue(BaseForm + extra, "cfg_scale") == Some("1.8")
    ensures FieldValue(BaseForm + extra, "motion_bucket_id") == Some("127")
    ensures FieldValue(BaseForm + extra, "prompt") == FieldValue(extra, "prompt")
  {
    FieldValueAppend(BaseForm, extra, "seed");
    FieldValueAppend(BaseForm, extra, "cfg_scale");
    FieldValueAppend(BaseForm, extra, "motion_bucket_id");
    FieldValueAppend(BaseForm, extra, "prompt");
    assert BaseForm[1..][1..][1..] == [TextField("motion_bucket_id", "127")];
  }

  /** The form of the direct call: the prompt field only for a non-empty prompt. */
  function DirectForm(prompt: string): (f: Form)
    ensures |f| == (if prompt == "" then 4 else 5) && f[..4] == BaseForm
    ensures FieldValue(f, "prompt") == (if prompt == "" then None else Some(prompt))
    ensures FieldValue(f, "seed") == Some("0")
    ensures FieldValue(f, "cfg_scale") == Some("1.8")
    ensures FieldValue(f, "motion_bucket_id") == Some("127")
    ensures ImageField in f
  {
    var extra := if prompt != "" then [TextField("prompt", prompt)] else [];
    BaseFormLookup(extra);
    assert (BaseForm + extra)[..4] == BaseForm;
    BaseForm + extra
  }

  /** The form of the Gemini-path call: the prompt field always, even when empty. */
  function EnhancedForm(prompt: string): (f: Form)
    ensures |f| == 5 && f[..4] == BaseForm
    ensures FieldValue(f, "prompt") == Some(prompt)
    ensures FieldValue(f, "seed") == Some("0")
    ensures FieldValue(f, "cfg_scale") == Some("1.8")
    ensures FieldValue(f, "motion_bucket_id") == Some("127")
    ensures ImageField in f
  {
    BaseFormLookup([TextField("prompt", prompt)]);
    assert (BaseForm + [TextField("prompt", prompt)])[..4] == BaseForm;
    BaseForm + [TextField("prompt", prompt)]
  }

  /** Posting `form`: a 200 hands the job id to the result poll (default
      budget); any other status, or an exception, returns `None`. An image
      that cannot be opened ends the call before the form is built. */
  function Submit(form: Form, up: Upstream): (c: ProviderCall)
    ensures up.submit.OpenRaised? ==> c == NoRequest
    ensures !up.submit.OpenRaised? ==> c.sent == Some(form)
    ensures c.polledJob.Some? <==> Accepted(up)
    ensures c.polledJob.Some? ==> c.polledJob.value == up.submit.id
    ensures c.polledJob.None? ==> c.requests == 0 && c.video.None?
    ensures c.requests <= Poll.DefaultMaxAttempts
    ensures c.video.Some? ==> c.requests > 0 && Poll.IsReady(up.replies(c.requests - 1))
    ensures c.video == JobVideo(up)
  {
    match up.submit
    case OpenRaised => NoRequest
    case SubmitRaised => ProviderCall(Some(form), None, 0, None)
    case Submitted(status, id) =>
      if status == 200 then
        var o := Poll.PollResult(up.replies, Poll.DefaultMaxAttempts, up.savePath);
        ProviderCall(Some(form), Some(id), o.requests, o.video)
      else ProviderCall(Some(form), None, 0, None)
  }

  /** `stability_image_to_video`: with no headers (no key) it returns
      `None` without any request; otherwise it submits the direct form and
      returns what the poll of an accepted job returns. */
  function ImageToVideo(headers: map<string, string>, prompt: string, up: Upstream): (c: ProviderCall)
    ensures |headers| == 0 ==> c == NoRequest
    ensures |headers| != 0 && !up.submit.OpenRaised? ==> c.sent == Some(DirectForm(prompt))
    ensures |headers| != 0 ==> (c.polledJob.Some? <==> Accepted(up))
    ensures c.video == (if |headers| != 0 && Accepted(up)
      then Poll.PollResult(up.replies, Poll.DefaultMaxAttempts, up.savePath).video else None)
  {
    if |headers| == 0 then NoRequest else Submit(DirectForm(prompt), up)
  }

  /** `fallback_to_stability_ai`: with an empty key it returns `None`
      without any request; otherwise it submits the enhanced prompt and
      returns what the poll of an accepted job returns. */
  function FallbackToStabilityAi(key: string, enhancedPrompt: string, up: Upstream): (c: ProviderCall)
    ensures key == "" ==> c == NoRequest
    ensures key != "" && !up.submit.OpenRaised? ==> c.sent == Some(EnhancedForm(enhancedPrompt))
    ensures key != "" ==> (c.polledJob.Some? <==> Accepted(up))
    ensures c.video == (if key != "" && Accepted(up)
      then Poll.PollResult(up.replies, Poll.DefaultMaxAttempts, up.savePath).video else None)
  {
    if key == "" then NoRequest else Submit(EnhancedForm(enhancedPrompt), up)
  }

  /** Both calls are guarded by the same configured key: the direct call's
      header test and the Gemini path's key test skip the network together,
      and an image that cannot be opened stops either before its form is built. */
  lemma GuardsAgree(key: string, prompt: string, up: Upstream)
    ensures ImageToVideo(AuthHeaders(key), prompt, up).sent.None? <==> key == "" || up.submit.OpenRaised?
    ensures FallbackToStabilityAi(key, prompt, up).sent.None? <==> key == "" || up.submit.OpenRaised?
  {
  }

  /** A rejected submission returns `None` and never polls. */
  lemma RejectedSubmissionReturnsNone(form: Form, up: Upstream)
    requires up.submit.Submitted? && up.submit.status != 200
    ensures Submit(form, up) == ProviderCall(Some(form), None, 0, None)
  {
  }

  /** An accepted submission polls its job id, and the call returns exactly
      what the poll returns. */
  lemma AcceptedSubmissionPolls(form: Form, up: Upstream)
    requires Accepted(up)
    ensures var c := Submit(form, up);
      var o := Poll.PollResult(up.replies, Poll.DefaultMaxAttempts, up.savePath);
      c.polledJob == Some(up.submit.id) && c.video == o.video && c.requests == o.requests
  {
  }

  /** The submission as both functions are written: the `with open(...)`
      block holding the image ends before `session.post` runs, so the
      form's image field refers to a closed file when the request body is
      produced, and reading it raises. Whatever the upstream would have
      answered, the call ends in its `except` branch with `None`. */
  function SubmitAsWritten(form: Form, up: Upstream): (c: ProviderCall)
    ensures c.sent.Some? <==> !up.submit.OpenRaised?
    ensures c.polledJob.None? && c.requests == 0 && c.video.None?
  {
    if up.submit.OpenRaised? then NoRequest else ProviderCall(Some(form), None, 0, None)
  }

  /** The closed image loses the video: an upstream that accepts the job
      and has it ready at the first status request gives `Submit` a video
      and the call as written none. */
  lemma ClosedImageLosesVideo(form: Form)
    ensures var up := Upstream(Submitted(200, "job"), (j: nat) => Poll.Response(200, []), "v.mp4");
      && Submit(form, up).video == Some(Poll.VideoFile("v.mp4", []))
      && SubmitAsWritten(form, up).video.None?
  {
  }
}

=== FILE: suggestions.dfy ===
/** Motion suggestions read off a free-text image analysis by
    case-insensitive keyword tests. */
module Suggestions {
  import opened Common

  /** Lower-casing of one character, as far as it can matter to an ASCII
      keyword: `A`-`Z` and the Kelvin sign (U+212A, which Python lower-cases
      to `k`); every other character is kept. */
  function LowerChar(c: char): (d: char)
    ensures 'A' <= c <= 'Z' ==> d as int == c as int + 32
    ensures c == '\U{212A}' ==> d == 'k'
    ensures !('A' <= c <= 'Z') && c != '\U{212A}' ==> d == c
    ensures !('A' <= d <= 'Z')
  {
    if 'A' <= c <= 'Z' then (c as int + 32) as char
    else if c == '\U{212A}' then 'k'
    else c
  }

  /** `s.lower()`, character by character. */
  function Lower(s: string): (r: string)
    ensures |r| == |s|
    ensures forall k :: 0 <= k < |s| ==> r[k] == LowerChar(s[k])
  {
    seq(|s|, k requires 0 <= k < |s| => LowerChar(s[k]))
  }

  /** `word` matches `text` at `i` once `text`'s characters are lower-cased. */
  ghost predicate MatchesAt(text: string, word: string, i: int) {
    && 0 <= i && i + |word| <= |text|
    && forall k :: 0 <= k < |word| ==> LowerChar(text[i + k]) == word[k]
  }

  /** An occurrence in the lower-cased text is a case-insensitive match in
      the text itself, and back. */
  lemma OccursIffMatches(text: string, word: string, i: int)
    ensures OccursAt(Lower(text), word, i) <==> MatchesAt(text, word, i)
  {
    if 0 <= i && i + |word| <= |text| {
      var l := Lower(text);
      var piece := l[i..i + |word|];
      assert forall k :: 0 <= k < |piece| ==> piece[k] == l[i + k];
      if MatchesAt(text, word, i) {
        assert piece == word;
      }
    }
  }

  /** Containment in the lower-cased text is a case-insensitive match
      somewhere in the text itself. */
  lemma ContainsIffMatches(text: string, word: string)
    ensures Contains(Lower(text), word) <==> exists i :: 0 <= i <= |text| - |word| && MatchesAt(text, word, i)
  {
    forall i | 0 <= i <= |text| - |word| ensures OccursAt(Lower(text), word, i) <==> MatchesAt(text, word, i) {
      OccursIffMatches(text, word, i);
    }
  }

  /** `word in text.lower()`: `word` matches some stretch of `text` up to case. */
  function Mentions(text: string, word: string): (b: bool)
    ensures b <==> exists i :: 0 <= i <= |text| - |word| && MatchesAt(text, word, i)
  {
    ContainsIffMatches(text, word);
    Contains(Lower(text), word)
  }

  const Clouds := "slow moving clouds"
  const Water := "flowing water motion"
  const Leaves := "gentle leaf movement"
  const People := "subtle human movement"
  const Default := "cinematic slow motion"

  /** The four suggestions in the order they are checked. */
  const Catalogue: seq<string> := [Clouds, Water, Leaves, People]

  predicate MentionsSky(a: string) { Mentions(a, "sky") || Mentions(a, "cloud") }
  predicate MentionsWater(a: string) { Mentions(a, "water") || Mentions(a, "river") }
  predicate MentionsTree(a: string) { Mentions(a, "tree") || Mentions(a, "leaf") }
  predicate MentionsPerson(a: string) { Mentions(a, "person") || Mentions(a, "people") }

  predicate MentionsAnyKeyword(a: string) {
    MentionsSky(a) || MentionsWater(a) || MentionsTree(a) || MentionsPerson(a)
  }

  /** The items whose flag is set, in their original order. */
  function Pick(flags: seq<bool>, items: seq<string>): (r: seq<string>)
    requires |flags| == |items|
    ensures IsSubsequence(r, items)
    ensures forall i :: 0 <= i < |items| && flags[i] ==> items[i] in r
    ensures forall x :: x in r ==> exists i :: 0 <= i < |items| && flags[i] && items[i] == x
    ensures r == [] <==> forall i :: 0 <= i < |flags| ==> !flags[i]
  {
    if flags == [] then []
    else
      var rest := Pick(flags[1..], items[1..]);
      assert forall i :: 1 <= i < |items| ==> items[i] == items[1..][i - 1] && flags[i] == flags[1..][i - 1];
      if flags[0] then
        assert ([items[0]] + rest)[1..] == rest;
        [items[0]] + rest
      else
        SubsequenceOfTail(rest, items[0], items[1..]);
        assert [items[0]] + items[1..] == items;
        rest
  }

  /** For distinct items, an item is picked exactly when its flag is set. */
  lemma PickMember(flags: seq<bool>, items: seq<string>, i: int)
    requires |flags| == |items| && 0 <= i < |items| && Distinct(items)
    ensures items[i] in Pick(flags, items) <==> flags[i]
  {
    if items[i] in Pick(flags, items) {
      var j :| 0 <= j < |items| && flags[j] && items[j] == items[i];
      assert !(i < j) && !(j < i);
    }
  }

  /** The four suggestions and the default are pairwise different. */
  lemma TextsDistinct()
    ensures Distinct(Catalogue)
    ensures Default !in Catalogue
  {
  }

  /** The suggestion list given which of the four keyword pairs occur. */
  function Select(sky: bool, water: bool, tree: bool, person: bool): (r: seq<string>)
    ensures r != []
    ensures r == [Default] <==> !(sky || water || tree || person)
    ensures sky || water || tree || person ==>
      && (Clouds in r <==> sky)
      && (Water in r <==> water)
      && (Leaves in r <==> tree)
      && (People in r <==> person)
      && IsSubsequence(r, Catalogue)
  {
    var flags := [sky, water, tree, person];
    var found := Pick(flags, Catalogue);
    TextsDistinct();
    PickMember(flags, Catalogue, 0);
    PickMember(flags, Catalogue, 1);
    PickMember(flags, Catalogue, 2);
    PickMember(flags, Catalogue, 3);
    if found != [] then
      assert found[0] in found;
      found
    else [Default]
  }

  /** `_extract_video_suggestions`. */
  function ExtractVideoSuggestions(analysis: string): (r: seq<string>)
    ensures r != []
    ensures r == [Default] <==> !MentionsAnyKeyword(analysis)
    ensures MentionsAnyKeyword(analysis) ==>
      && (Clouds in r <==> MentionsSky(analysis))
      && (Water in r <==> MentionsWater(analysis))
      && (Leaves in r <==> MentionsTree(analysis))
      && (People in r <==> MentionsPerson(analysis))
      && IsSubsequence(r, Catalogue)
  {
    Select(MentionsSky(analysis), MentionsWater(analysis), MentionsTree(analysis), MentionsPerson(analysis))
  }

  /** Every entry appears once. */
  lemma SuggestionsDistinct(analysis: string)
    ensures var r := ExtractVideoSuggestions(analysis);
      Distinct(r)
  {
    var r := ExtractVideoSuggestions(analysis);
    if r != [Default] {
      TextsDistinct();
      SubsequenceDistinct(r, Catalogue);
    }
  }

  /** Lower-casing is idempotent. */
  lemma LowerIdempotent(s: string)
    ensures Lower(Lower(s)) == Lower(s)
  {
  }

  /** The tests ignore case: an analysis and its lower-cased form give the
      same suggestions. */
  lemma SuggestionsIgnoreCase(analysis: string)
    ensures ExtractVideoSuggestions(Lower(analysis)) == ExtractVideoSuggestions(analysis)
  {
    LowerIdempotent(analysis);
  }

  /** A word with a character that the text lacks does not occur in it. */
  lemma AbsentCharacter(text: string, word: string, j: nat)
    requires j < |word|
    requires forall k :: 0 <= k < |text| ==> text[k] != word[j]
    ensures !Contains(text, word)
  {
    forall i | 0 <= i <= |text| - |word| ensures !OccursAt(text, word, i) {
      assert text[i..i + |word|][j] == text[i + j];
    }
  }

  /** Which keyword pairs `"A calm RIVER"` mentions: only the water pair. */
  lemma RiverFlags()
    ensures !MentionsSky("A calm RIVER") && MentionsWater("A calm RIVER")
    ensures !MentionsTree("A calm RIVER") && !MentionsPerson("A calm RIVER")
  {
    var l := Lower("A calm RIVER");
    assert l == "a calm river";
    assert OccursAt(l, "river", 7);
    AbsentCharacter(l, "sky", 1);
    AbsentCharacter(l, "cloud", 2);
    AbsentCharacter(l, "water", 0);
    AbsentCharacter(l, "tree", 0);
    AbsentCharacter(l, "leaf", 3);
    AbsentCharacter(l, "person", 0);
    AbsentCharacter(l, "people", 0);
  }

  /** Only the water flag: the water suggestion alone. */
  lemma WaterOnly()
    ensures Select(false, true, false, false) == [Water]
  {
    assert Pick([false], [People]) == [];
    assert Pick([false, false], [Leaves, People]) == [];
    assert Pick([true, false, false], [Water, Leaves, People]) == [Water];
    assert Pick([false, true, false, false], Catalogue) == [Water];
  }

  /** An analysis mentioning a river, in capitals. */
  lemma RiverExample()
    ensures ExtractVideoSuggestions("A calm RIVER") == [Water]
  {
    RiverFlags();
    WaterOnly();
  }

  /** An analysis with none of the keywords gets the default suggestion. */
  lemma DefaultExample()
    ensures ExtractVideoSuggestions("Portrait") == [Default]
  {
    var l := Lower("Portrait");
    assert l == "portrait";
    AbsentCharacter(l, "sky", 1);
    AbsentCharacter(l, "cloud", 0);
    AbsentCharacter(l, "water", 0);
    AbsentCharacter(l, "river", 2);
    AbsentCharacter(l, "tree", 2);
    AbsentCharacter(l, "leaf", 1);
    AbsentCharacter(l, "person", 1);
    AbsentCharacter(l, "people", 1);
  }
}

=== FILE: video_processor.dfy ===
/** Checks and preparation of an uploaded image, and removal of temporary
    files. The image library and the file system are abstract: each
    operation is given what they report. */
module VideoProcessor {
  import opened Common
  import Config

  /** The size bound the validator writes out itself (10 MiB). */
  const ValidatorSizeLimit: nat := 10 * 1024 * 1024

  /** What validation learns about a file: whether the image library opened
      and verified it without raising, and its size on disk (`None` when
      reading the size raised). */
  datatype ImageProbe = ImageProbe(verifies: bool, size: Option<nat>)

  /** `validate_image`: fails closed. The file must verify as an image and
      be at most the configured maximum size; a file of exactly 10 MiB passes. */
  function ValidateImage(probe: ImageProbe): (ok: bool)
    ensures ok <==> probe.verifies && probe.size.Some? && probe.size.value <= Config.MaxFileSize
  {
    if !probe.verifies then false
    else match probe.size
      case None => false
      case Some(size) => !(size > ValidatorSizeLimit)
  }

  /** The validator's bound is the configured `MAX_FILE_SIZE`. */
  lemma SizeLimitsAgree()
    ensures ValidatorSizeLimit == Config.MaxFileSize == 10485760
  {
  }

  /** The boundary: exactly 10 MiB is accepted, one byte more is not. */
  lemma SizeBoundary()
    ensures ValidateImage(ImageProbe(true, Some(10485760)))
    ensures !ValidateImage(ImageProbe(true, Some(10485761)))
  {
  }

  /** Python's `s.replace(pat, rep)`: every non-overlapping occurrence of
      `pat`, scanning left to right, is replaced. */
  function ReplaceAll(s: string, pat: string, rep: string): (r: string)
    requires pat != []
    ensures !Contains(s, pat) ==> r == s
    ensures |rep| >= |pat| ==> |r| >= |s|
    ensures |rep| > |pat| && Contains(s, pat) ==> |r| > |s|
    decreases |s|
  {
    if |s| < |pat| then s
    else if s[..|pat|] == pat then
      assert OccursAt(s, pat, 0);
      rep + ReplaceAll(s[|pat|..], pat, rep)
    else
      ContainsTail(s, pat);
      [s[0]] + ReplaceAll(s[1..], pat, rep)
  }

  const Jpg := ".jpg"
  const OptimizedJpg := "_optimized.jpg"

  /** How many characters the rename inserts before each `.jpg`. */
  const Inserted: int := |OptimizedJpg| - |Jpg|

  /** The name the optimised copy is saved under: a path without `.jpg`
      keeps its name, one with `.jpg` gets a strictly longer one. */
  function OptimizedPath(path: string): (r: string)
    ensures |r| >= |path|
    ensures r == path <==> !Contains(path, Jpg)
  {
    ReplaceAll(path, Jpg, OptimizedJpg)
  }

  /** Undoing the rename: `_optimized.jpg` back to `.jpg`. */
  function RestoredPath(path: string): string {
    ReplaceAll(path, OptimizedJpg, Jpg)
  }

  /** A prefix without `_` of an optimised path is a prefix of the original
      path, and `.jpg` does not occur in it. */
  lemma {:induction false} OptimizedPrefix(t: string, p: string)
    requires StartsWith(OptimizedPath(t), p)
    requires forall k :: 0 <= k < |p| ==> p[k] != '_'
    ensures StartsWith(t, p)
    ensures !Contains(p, Jpg)
    decreases |t|
  {
    if |t| < |Jpg| {
    } else if t[..|Jpg|] == Jpg {
      assert OptimizedPath(t) == OptimizedJpg + OptimizedPath(t[|Jpg|..]);
      assert OptimizedPath(t)[0] == '_';
      assert p == [];
    } else if p != [] {
      var rest := OptimizedPath(t[1..]);
      assert OptimizedPath(t) == [t[0]] + rest;
      assert StartsWith(rest, p[1..]) by {
        assert rest[..|p| - 1] == OptimizedPath(t)[1..|p|];
      }
      OptimizedPrefix(t[1..], p[1..]);
      assert p[0] == OptimizedPath(t)[..|p|][0] == t[0];
      StartsWithCons(t, p);
      assert !StartsWith(p, Jpg) by {
        if |Jpg| <= |p| {
          assert p[..|Jpg|] == t[..|Jpg|];
        }
      }
      ContainsTail(p, Jpg);
    }
  }

  /** An optimised path whose source does not start with `.jpg` does not
      start with `_optimized.jpg`: that would put a `.jpg` inside a prefix
      copied unchanged from the source. */
  lemma OptimizedStart(path: string)
    requires |path| >= |Jpg| && path[..|Jpg|] != Jpg
    ensures !StartsWith(OptimizedPath(path), OptimizedJpg)
  {
    var rest := OptimizedPath(path[1..]);
    var o := [path[0]] + rest;
    assert OptimizedPath(path) == o;
    var p := OptimizedJpg[1..];
    assert OccursAt(p, Jpg, 9);
    assert forall k :: 0 <= k < |p| ==> p[k] == OptimizedJpg[k + 1];
    assert forall k :: 0 <= k < |p| ==> p[k] != '_';
    if StartsWith(o, OptimizedJpg) {
      assert rest[..|p|] == o[1..|OptimizedJpg|] == p;
      OptimizedPrefix(path[1..], p);
    }
  }

  /** Restoring a string that does not start with `_optimized.jpg` keeps its
      first character and restores the rest. */
  lemma RestoredCons(c: char, t: string)
    requires !StartsWith([c] + t, OptimizedJpg)
    ensures RestoredPath([c] + t) == [c] + RestoredPath(t)
  {
    assert ([c] + t)[1..] == t;
    if |[c] + t| < |OptimizedJpg| {
      assert !Contains(t, OptimizedJpg);
    }
  }

  /** The rename can be undone: restoring an optimised path gives the
      original back, so distinct uploads never share an optimised name. */
  lemma {:induction false} RestoreOptimized(path: string)
    ensures RestoredPath(OptimizedPath(path)) == path
    decreases |path|
  {
    if |path| < |Jpg| {
      assert OptimizedPath(path) == path;
      assert !Contains(path, OptimizedJpg);
    } else if path[..|Jpg|] == Jpg {
      var rest := OptimizedPath(path[|Jpg|..]);
      assert OptimizedPath(path) == OptimizedJpg + rest;
      assert (OptimizedJpg + rest)[..|OptimizedJpg|] == OptimizedJpg;
      assert (OptimizedJpg + rest)[|OptimizedJpg|..] == rest;
      RestoreOptimized(path[|Jpg|..]);
      assert path == Jpg + path[|Jpg|..];
    } else {
      var rest := OptimizedPath(path[1..]);
      assert OptimizedPath(path) == [path[0]] + rest;
      OptimizedStart(path);
      RestoredCons(path[0], rest);
      RestoreOptimized(path[1..]);
      assert path == [path[0]] + path[1..];
    }
  }

  /** `optimize_image`: the optimised name when processing and saving
      succeeded, the original path when any step raised. */
  function OptimizeImage(path: string, processed: bool): (r: string)
    ensures r == path <==> !processed || !Contains(path, Jpg)
    ensures processed ==> r == OptimizedPath(path)
    ensures processed ==> RestoredPath(r) == path
  {
    RestoreOptimized(path);
    if processed then OptimizedPath(path) else path
  }

  /** The only `.` of `_optimized.jpg` is the one of its `.jpg`. */
  lemma OnlyDotOfOptimizedJpg(k: int)
    requires 0 <= k < |OptimizedJpg| && OptimizedJpg[k] == '.'
    ensures k == Inserted
  {
  }

  /** Every `.jpg` in `o` ends an `_optimized.jpg`. */
  ghost predicate JpgsRewritten(o: string) {
    forall i :: OccursAt(o, Jpg, i) ==>
      i >= Inserted && OccursAt(o, OptimizedJpg, i - Inserted)
  }

  /** A `.jpg` that starts inside a leading `_optimized.jpg` is that
      string's own `.jpg`. */
  lemma JpgInsideOptimizedJpg(rest: string, i: int)
    requires OccursAt(OptimizedJpg + rest, Jpg, i) && i < |OptimizedJpg|
    ensures i == Inserted && OccursAt(OptimizedJpg + rest, OptimizedJpg, 0)
  {
    var o := OptimizedJpg + rest;
    assert o[i] == o[i..i + |Jpg|][0];
    assert o[i] == OptimizedJpg[i];
    OnlyDotOfOptimizedJpg(i);
    assert o[..|OptimizedJpg|] == OptimizedJpg;
  }

  /** A `.jpg` after a leading `_optimized.jpg` is one of `rest`, so it ends
      an `_optimized.jpg` there too. */
  lemma JpgAfterOptimizedJpg(rest: string, i: int)
    requires JpgsRewritten(rest)
    requires OccursAt(OptimizedJpg + rest, Jpg, i) && i >= |OptimizedJpg|
    ensures i >= Inserted && OccursAt(OptimizedJpg + rest, OptimizedJpg, i - Inserted)
  {
    ShiftOccurrence(OptimizedJpg, rest, Jpg, i - |OptimizedJpg|);
    ShiftOccurrence(OptimizedJpg, rest, OptimizedJpg, i - |OptimizedJpg| - Inserted);
  }

  /** Putting `_optimized.jpg` in front keeps every `.jpg` rewritten. */
  lemma RewrittenAfterOptimizedJpg(rest: string)
    requires JpgsRewritten(rest)
    ensures JpgsRewritten(OptimizedJpg + rest)
  {
    forall i | OccursAt(OptimizedJpg + rest, Jpg, i) ensures i >= Inserted && OccursAt(OptimizedJpg + rest, OptimizedJpg, i - Inserted) {
      if i < |OptimizedJpg| {
        JpgInsideOptimizedJpg(rest, i);
      } else {
        JpgAfterOptimizedJpg(rest, i);
      }
    }
  }

  /** A `.jpg` after the first character of `[c] + rest` is one of
      `rest`, so it ends an `_optimized.jpg` there too. */
  lemma RewrittenAfterCharAt(c: char, rest: string, i: int)
    requires JpgsRewritten(rest)
    requires OccursAt([c] + rest, Jpg, i) && i != 0
    ensures i >= Inserted && OccursAt([c] + rest, OptimizedJpg, i - Inserted)
  {
    ShiftOccurrence([c], rest, Jpg, i - 1);
    ShiftOccurrence([c], rest, OptimizedJpg, i - 1 - Inserted);
  }

  /** Putting a character in front keeps every `.jpg` rewritten, unless it
      starts a new `.jpg`. */
  lemma RewrittenAfterChar(c: char, rest: string)
    requires JpgsRewritten(rest)
    requires !StartsWith([c] + rest, Jpg)
    ensures JpgsRewritten([c] + rest)
  {
    StartsWithOccurs([c] + rest, Jpg);
    forall i | OccursAt([c] + rest, Jpg, i) ensures i >= Inserted && OccursAt([c] + rest, OptimizedJpg, i - Inserted) {
      RewrittenAfterCharAt(c, rest, i);
    }
  }

  /** Every `.jpg` is rewritten: each `.jpg` left in an optimised path is
      the tail of an `_optimized.jpg`. */
  lemma {:induction false} EveryJpgRewritten(path: string)
    ensures JpgsRewritten(OptimizedPath(path))
    decreases |path|
  {
    if |path| < |Jpg| {
      assert OptimizedPath(path) == path;
    } else if path[..|Jpg|] == Jpg {
      EveryJpgRewritten(path[|Jpg|..]);
      RewrittenAfterOptimizedJpg(OptimizedPath(path[|Jpg|..]));
    } else {
      var rest := OptimizedPath(path[1..]);
      assert OptimizedPath(path) == [path[0]] + rest;
      EveryJpgRewritten(path[1..]);
      assert !StartsWith(OptimizedPath(path), Jpg) by {
        if StartsWith(OptimizedPath(path), Jpg) {
          OptimizedPrefix(path, Jpg);
        }
      }
      RewrittenAfterChar(path[0], rest);
    }
  }

  /** `base + .jpg` has its only `.jpg` at the end. */
  ghost predicate OnlyJpgAtEnd(base: string) {
    forall i :: 0 <= i < |base| ==> !OccursAt(base + Jpg, Jpg, i)
  }

  /** Dropping the first character keeps the `.jpg` only at the end. */
  lemma OnlyJpgAtEndTail(base: string)
    requires base != [] && OnlyJpgAtEnd(base)
    ensures OnlyJpgAtEnd(base[1..])
  {
    var s := base + Jpg;
    assert s == [base[0]] + (base[1..] + Jpg);
    forall i | 0 <= i < |base[1..]| ensures !OccursAt(base[1..] + Jpg, Jpg, i) {
      ShiftOccurrence([base[0]], base[1..] + Jpg, Jpg, i);
    }
  }

  /** A path whose only `.jpg` is its extension gets `_optimized` inserted
      before the extension. */
  lemma {:induction false} OptimizedExtension(base: string)
    requires OnlyJpgAtEnd(base)
    ensures OptimizedPath(base + Jpg) == base + OptimizedJpg
    decreases |base|
  {
    var s := base + Jpg;
    if base == [] {
      assert s == Jpg && s[..|Jpg|] == Jpg && s[|Jpg|..] == [];
      assert OptimizedPath(s) == OptimizedJpg + OptimizedPath([]);
    } else {
      StartsWithOccurs(s, Jpg);
      assert !OccursAt(s, Jpg, 0);
      assert s[1..] == base[1..] + Jpg;
      assert OptimizedPath(s) == [s[0]] + OptimizedPath(s[1..]);
      OnlyJpgAtEndTail(base);
      OptimizedExtension(base[1..]);
      assert base + OptimizedJpg == [base[0]] + (base[1..] + OptimizedJpg);
    }
  }

  /** The paths among `paths` (in order, repeats included) whose removal
      raises: those that exist and cannot be unlinked. Such a path stays,
      so every later mention of it fails again. */
  function FailedRemovals(paths: seq<string>, existing: set<string>, undeletable: set<string>): (r: seq<string>)
    ensures forall p :: p in r <==> p in paths && p in existing && p in undeletable
    ensures |r| <= |paths|
  {
    if paths == [] then []
    else
      var last := paths[|paths| - 1];
      FailedRemovals(paths[..|paths| - 1], existing, undeletable)
        + (if last in existing && last in undeletable then [last] else [])
  }

  /** The files removed by `cleanup_files(paths)`: every listed file that
      exists and can be unlinked. */
  function Removed(paths: seq<string>, existing: set<string>, undeletable: set<string>): set<string> {
    set p | p in paths && p in existing && p !in undeletable
  }

  /** One more path: it joins the removed files when it exists and can be
      unlinked. */
  lemma RemovedStep(paths: seq<string>, i: int, existing: set<string>, undeletable: set<string>)
    requires 0 <= i < |paths|
    ensures Removed(paths[..i + 1], existing, undeletable)
      == Removed(paths[..i], existing, undeletable)
         + (if paths[i] in existing && paths[i] !in undeletable then {paths[i]} else {})
  {
    assert paths[..i + 1] == paths[..i] + [paths[i]];
  }

  /** One more path: it joins the failure log when it exists and cannot be
      unlinked. */
  lemma FailedStep(paths: seq<string>, i: int, existing: set<string>, undeletable: set<string>)
    requires 0 <= i < |paths|
    ensures FailedRemovals(paths[..i + 1], existing, undeletable)
      == FailedRemovals(paths[..i], existing, undeletable)
         + (if paths[i] in existing && paths[i] in undeletable then [paths[i]] else [])
  {
    assert paths[..i + 1][..i] == paths[..i];
  }

  /** `cleanup_files`: for each path in turn, unlink it if it exists; an
      unlink that raises is logged and the loop goes on with the next path.
      Returns the files left and the log of failed paths. */
  method CleanupFiles(paths: seq<string>, existing: set<string>, undeletable: set<string>)
    returns (remaining: set<string>, errors: seq<string>)
    ensures remaining == existing - Removed(paths, existing, undeletable)
    ensures errors == FailedRemovals(paths, existing, undeletable)
  {
    remaining := existing;
    errors := [];
    var i := 0;
    while i < |paths|
      invariant 0 <= i <= |paths|
      invariant remaining == existing - Removed(paths[..i], existing, undeletable)
      invariant errors == FailedRemovals(paths[..i], existing, undeletable)
    {
      var path := paths[i];
      RemovedStep(paths, i, existing, undeletable);
      FailedStep(paths, i, existing, undeletable);
      if path in remaining {
        if path in undeletable {
          errors := errors + [path];
        } else {
          remaining := remaining - {path};
        }
      }
      i := i + 1;
    }
    assert paths[..|paths|] == paths;
  }
}
